=== FILE: README.md ===
# Login and refresh tokens of fast-auth-api, in Dafny

This project models the authentication service of fast-auth-api (`auth/services.py`). There are two entry points:

- **Login** (`get_token`) looks up the user by the submitted email and checks the password. It then checks that the account is active, and issues an access token and a refresh token.
- **Refresh** (`get_refresh_token`) decodes a presented token and reads its `id` claim. It resolves that user and issues a new access token, passing the presented token back as the refresh token.

The procedure is pure decision logic, so the model is made of datatypes, functions and lemmas:

- `Env` holds what the service calls but does not define, as function-valued fields: the password check, the access-token creator, the refresh-token creator and the token parser. It also holds the configured access-token lifetime in minutes.
- `Directory` is the user table, as two finite maps: email to user and id to user.
- `Outcome` is how a request ends. `Issued` carries a token response. `Rejected` is an HTTP error with its status, detail and `WWW-Authenticate: Bearer` header. `Propagated` is an error raised by the token parser, passed through unchanged. `Crashed` is a TypeError raised while building an HTTP error.
- Token payloads are maps from keys to JSON values. Python truthiness is the predicate `Claims.Truthy`.
- `timedelta(minutes=M)` is Python's normalized days/seconds pair. `expires_in` is its `.seconds` field, which is (M*60) mod 86400. It equals M*60 only for 0 <= M < 1440, so a lifetime of one day or more reports the wrong number of seconds. The model keeps the code's behaviour here.

Behaviours of the code worth knowing:

- Login tells "User not found" apart from "Invalid login credentials", so it reveals which emails are registered (`LoginRevealsRegisteredEmails`).
- `expires_in` is the `.seconds` field, not the total lifetime.
- Refresh creates a new refresh token only when the presented token is empty. Otherwise it echoes the presented token.
- An `id` of 0 counts as missing.

## Model

| member | source | states |
|---|---|---|
| Timedelta.FromMinutes | auth/services.py:56 | the expiry is in Python's normal form (0 <= seconds < 86400) and lasts exactly M*60 seconds |
| Timedelta.NormalFormUnique | auth/services.py:56 | two normalized timedeltas of the same length are equal, so `FromMinutes` is the value Python builds |
| Timedelta.SecondsIsTotalIff | auth/services.py:65 | `.seconds` of the expiry equals M*60 if and only if 0 <= M < 1440 |
| Timedelta.SecondsDropsWholeDays | auth/services.py:65 | for every M, negative included, `.seconds` is (M mod 1440)*60 and `days` is M floor-divided by 1440 |
| Timedelta.OneDayReportsZeroSeconds | auth/services.py:65 | a 1440-minute lifetime reports `expires_in` 0 |
| Timedelta.NegativeMinuteWraps | auth/services.py:56-65 | a -1 minute lifetime is -1 day plus 86340 seconds, so `expires_in` is 86340 |
| Claims.Truthy | auth/services.py:72 | `not user_id` holds exactly for None, False, 0, the empty string, the empty list and the empty object |
| Claims.GetId | auth/services.py:71 | a missing `id` key reads as None; a present one reads as its value |
| Claims.IdPayload | auth/services.py:54 | the token payload has exactly one key, `id`, holding the user's id |
| Claims.IdPayloadTruthyIff | auth/services.py:54-72 | the id claim of an issued payload passes the truthiness test if and only if the id is non-zero |
| Users.FindByEmail | auth/services.py:14 | the login lookup finds a user exactly when the email is registered, and finds that row |
| Users.FindById | auth/services.py:79 | the refresh lookup finds a user exactly when the claim is an integer id present in the table |
| AuthServices.HttpException | auth/services.py:17-28 | an HTTP error built with `status_code` is a rejection with that status, detail and Bearer challenge; built with any other keyword it is a TypeError |
| AuthServices.VerifyUserAccess | auth/services.py:35-50 | access is refused if and only if the account is inactive; `is_verified` is not consulted |
| AuthServices.UserToken | auth/services.py:53-66 | the access token is made from `{"id": user.id}` with an M-minute expiry; a supplied refresh token is kept if and only if it is truthy, otherwise a new one is made from the same payload; `expires_in` lies in [0, 86400) and is M*60 minus the whole days |
| AuthServices.LoginWith | auth/services.py:13-41 | `get_token` with the keyword used at the "User not found" and inactive call sites as a parameter: each check's failure, in source order, is that site's HTTP error; the credentials error always uses `status_code`; tokens are issued if and only if all three checks pass, with the response of `_get_user_token` without a refresh token; a login never propagates a codec error |
| AuthServices.GetToken | auth/services.py:13-32 | the checks run in order (email, then password, then active flag) and the first that fails gives its own 400; a wrong password gives the credentials error even for an inactive account; tokens are issued if and only if all three pass, with a fresh refresh token for `{"id": user.id}` |
| AuthServices.GetTokenAsWritten | auth/services.py:16-41 | it raises a TypeError if and only if the email is unregistered or the right password meets an inactive account (the two sites using `status=`); whenever the corrected login gives neither of those two 400s, the two outcomes are equal |
| AuthServices.GetRefreshToken | auth/services.py:69-86 | a parse error propagates unchanged; every rejection is the same 401 "Invalid refresh token"; tokens are issued if and only if the payload parses, its id is truthy and names a user; the presented token comes back as the refresh token when non-empty; `is_active` is not read |
| AuthProperties.FailedLoginIgnoresCodec | auth/services.py:16-32 | a login that issues nothing has called no token function: replacing the codec and TTL leaves its outcome unchanged |
| AuthProperties.UnknownEmailIgnoresCollaborators | auth/services.py:14-21 | an unregistered email gets "User not found" whatever the password check and codec are |
| AuthProperties.LoginRevealsRegisteredEmails | auth/services.py:14-28 | a login answers "User not found" if and only if the email is unregistered |
| AuthProperties.LoginIgnoresIsVerified | auth/services.py:43-50 | changing any user's `is_verified` leaves every login outcome unchanged |
| AuthProperties.LoginExpiresInIsTtlIff | auth/services.py:56-65 | a successful login's `expires_in` is the TTL in seconds if and only if the TTL is under one day |
| AuthProperties.RefreshRejectsZeroId | auth/services.py:71-77 | a payload with id 0 is refused with 401 even if a user with id 0 exists |
| AuthProperties.RefreshFailuresIndistinguishable | auth/services.py:72-85 | a payload without a truthy id and one naming an unknown id get the identical 401 response |
| AuthProperties.RefreshIgnoresIsActive | auth/services.py:79-86 | changing any user's `is_active` leaves every refresh outcome unchanged |
| AuthProperties.InactiveUserRefusedAtLoginButRefreshes | auth/services.py:35-41 | on a table whose two indexes agree, an inactive account with a non-zero id is refused at login yet refreshes successfully with a token naming it (an id of 0 is refused on refresh, see `RefreshRejectsZeroId`) |
| AuthProperties.LoginThenRefresh | auth/services.py:59-86 | for a user with a non-zero id, on a table whose two indexes agree, and a non-empty refresh token: presenting a login's refresh token, when the codec decodes it back to its payload, gives the same refresh token back, an access token created from the same payload and expiry, and the same `expires_in` (equal to the login's response because the modelled codec has no clock) |
| AuthProperties.ZeroIdUserCannotRefresh | auth/services.py:72-77 | a user with id 0 can log in but the refresh token it receives is always refused |
| AuthProperties.RefreshTokenReusable | auth/services.py:59-60 | a successful refresh hands the presented (non-empty) token back unchanged as the refresh token, so it is never rotated |
| AuthProperties.AccessTokenAcceptedAsRefreshToken | auth/services.py:69-86 | for a user with a non-zero id, on a table whose two indexes agree, and a non-empty access token: if the codec decodes access tokens too, an access token presented for refresh succeeds and is echoed back as the refresh token |
| AuthFindings.SomeEmailUnregistered | auth/services.py:14 | every finite user table leaves some email unregistered |
| AuthFindings.UnknownEmailCrashesAsWritten | auth/services.py:16-21 | as written, an unregistered email raises a TypeError; corrected, it is the 400 "User not found" |
| AuthFindings.EveryTableHasCrashingLogin | auth/services.py:16-21 | as written, every user table admits a login that raises a TypeError |
| AuthFindings.InactiveAccountCrashesAsWritten | auth/services.py:36-41 | as written, the right password for an inactive account raises a TypeError; corrected, it is the 400 inactive response |
| AuthFindings.AsWrittenAgreesElsewhere | auth/services.py:23-32 | off those two paths the written and corrected logins agree |

## Left out

- The HTTP routes in `auth/routes.py` only wire the form and header parameters to the two services.
- Password hashing in `core/security.py` is a bcrypt call. Password checking is the uninterpreted `verifyPassword`, taken to be total. Errors the hashing library might raise are not modelled.
- The token codec is three uninterpreted functions: `create_access_token`, `create_refresh_token` and `get_token_payload`. Their definitions are not part of this model. JWT signing, expiry checking and the clock they read are left out. Each is a pure function of its arguments. The token creators are taken never to raise.
- The database session and queries become map lookups. Which row `.first()` returns when emails are duplicated is not modelled. Neither are transport errors from the database.
- Users.FindById: an id claim that is not an integer (a string, or `true`) is taken to match no row. What a real database makes of such a comparison is not modelled.
- Claims.Truthy: JSON floats are not modelled, so a `0.0` id is not covered.
- Timedelta.FromMinutes: the lifetime is a whole number of minutes, so microseconds are always zero. Python's overflow error for durations beyond 999999999 days is not modelled.
- The configuration loader and `get_settings` are replaced by the `accessTokenExpireMinutes` field of `Env`.
- `TokenResponse` comes from `auth/responses.py`, which is not part of this model. Only the three fields the service sets are modelled, so `token_type` is not.
- `Crashed` stands for the TypeError raised in Python. The 500 response that the web framework then sends is not modelled.

## Findings

| source | as written | input that shows it | evidently intended | confidence | as-written member | corrected member |
|---|---|---|---|---|---|---|
| auth/services.py:18 | the "User not found" error passes its status under the keyword `status`, which the exception constructor does not accept, so building it raises a TypeError | a login with any unregistered email | a 400 response with detail "User not found" | high; not executed | AuthFindings.UnknownEmailCrashesAsWritten | AuthServices.GetToken |
| auth/services.py:38 | the inactive-account error passes its status under the keyword `status`, so building it raises a TypeError | the correct password for an account whose `is_active` is false | a 400 response with the "account is inactive" detail | high; not executed | AuthFindings.InactiveAccountCrashesAsWritten | AuthServices.GetToken |

=== FILE: claims.dfy ===
/**
 * Token payloads: the JSON object a token carries, as the dictionary Python
 * sees after decoding, and Python's truthiness of its values.
 */
module Claims {

  /** A JSON value as decoded into Python (floats are not part of this model). */
  datatype Json =
    | JNull
    | JBool(b: bool)
    | JInt(n: int)
    | JString(s: string)
    | JArray(items: seq<Json>)
    | JObject(fields: map<string, Json>)

  /** A decoded token payload. */
  type Payload = map<string, Json>

  const IdKey: string := "id"

  /** Python's `bool(v)`: None, False, 0, "", [] and {} are falsy. */
  function Truthy(v: Json): (b: bool)
    ensures !b <==> v in {JNull, JBool(false), JInt(0), JString(""), JArray([]), JObject(map[])}
  {
    match v
    case JNull => false
    case JBool(b) => b
    case JInt(n) => n != 0
    case JString(s) => s != ""
    case JArray(items) => items != []
    case JObject(fields) => fields != map[]
  }

  /** `payload.get("id", None)`. */
  function GetId(p: Payload): (v: Json)
    ensures IdKey !in p ==> v == JNull
    ensures IdKey in p ==> v == p[IdKey]
  {
    if IdKey in p then p[IdKey] else JNull
  }

  /** `{"id": user.id}`: the payload every issued token is created from. */
  function IdPayload(id: int): (p: Payload)
    ensures p.Keys == {IdKey}
    ensures GetId(p) == JInt(id)
  {
    map[IdKey := JInt(id)]
  }

  /** The id claim of an issued payload is truthy exactly when the id is non-zero. */
  lemma IdPayloadTruthyIff(id: int)
    ensures Truthy(GetId(IdPayload(id))) <==> id != 0
  {
  }
}

=== FILE: findings.dfy ===
/**
 * The `HTTPException` calls of `auth/services.py` that pass the status as
 * `status=` instead of `status_code=`: as written they raise a TypeError
 * where a 400 response is evidently intended.
 */
module AuthFindings {
  import opened Users
  import opened AuthServices

  /** A length no email of the set exceeds. */
  ghost function LongestLength(emails: set<string>): (n: nat)
    ensures forall e :: e in emails ==> |e| <= n
    decreases emails
  {
    if emails == {} then 0
    else
      var e :| e in emails;
      var rest := LongestLength(emails - {e});
      if |e| > rest then |e| else rest
  }

  /** Every user table leaves some email unregistered. */
  lemma SomeEmailUnregistered(db: Directory)
    ensures exists email :: email !in db.byEmail
  {
    var unused := seq(LongestLength(db.byEmail.Keys) + 1, _ => 'a');
    assert unused !in db.byEmail;
  }

  /** As written, a login with an unregistered email crashes instead of answering 400 "User not found". */
  lemma UnknownEmailCrashesAsWritten(env: Env, db: Directory, form: LoginForm)
    requires form.username !in db.byEmail
    ensures GetTokenAsWritten(env, db, form) == Crashed
    ensures GetToken(env, db, form) == UserNotFound
  {
  }

  /** So every deployment, whatever its users, has a login that crashes as written. */
  lemma EveryTableHasCrashingLogin(env: Env, db: Directory, password: string)
    ensures exists email :: GetTokenAsWritten(env, db, LoginForm(email, password)) == Crashed
  {
    SomeEmailUnregistered(db);
    var email :| email !in db.byEmail;
    UnknownEmailCrashesAsWritten(env, db, LoginForm(email, password));
  }

  /** As written, the right password for an inactive account crashes instead of answering 400 "account is inactive". */
  lemma InactiveAccountCrashesAsWritten(env: Env, db: Directory, form: LoginForm)
    requires form.username in db.byEmail
    requires env.verifyPassword(form.password, db.byEmail[form.username].hashedPassword)
    requires !db.byEmail[form.username].isActive
    ensures GetTokenAsWritten(env, db, form) == Crashed
    ensures GetToken(env, db, form) == AccountInactive
  {
  }

  /** The only difference between the versions is on those two paths; the credentials error and success agree. */
  lemma AsWrittenAgreesElsewhere(env: Env, db: Directory, form: LoginForm)
    requires GetToken(env, db, form) != UserNotFound && GetToken(env, db, form) != AccountInactive
    ensures GetTokenAsWritten(env, db, form) == GetToken(env, db, form)
  {
  }
}

=== FILE: properties.dfy ===
/**
 * Properties of the login and refresh procedure that relate several calls,
 * or a call and a changed table or set of collaborators.
 */
module AuthProperties {
  import opened Wrappers
  import opened Timedelta
  import opened Claims
  import opened Users
  import opened AuthServices

  /** A login that issues nothing has not called the token codec: swapping the codec and TTL changes nothing. */
  lemma FailedLoginIgnoresCodec(env: Env, db: Directory, form: LoginForm,
                                createAccess: (Payload, TimeDelta) -> string,
                                createRefresh: Payload -> string,
                                parse: string -> Result<Payload, TokenError>,
                                minutes: int)
    requires !GetToken(env, db, form).Issued?
    ensures GetToken(env.(createAccessToken := createAccess, createRefreshToken := createRefresh,
                          getTokenPayload := parse, accessTokenExpireMinutes := minutes), db, form)
            == GetToken(env, db, form)
  {
  }

  /** An unknown email is rejected before any collaborator runs, the password check included. */
  lemma UnknownEmailIgnoresCollaborators(env: Env, other: Env, db: Directory, form: LoginForm)
    requires form.username !in db.byEmail
    ensures GetToken(env, db, form) == GetToken(other, db, form) == UserNotFound
  {
  }

  /** The "User not found" response tells a caller exactly whether an email is registered. */
  lemma LoginRevealsRegisteredEmails(env: Env, db: Directory, form: LoginForm)
    ensures GetToken(env, db, form) == UserNotFound <==> form.username !in db.byEmail
  {
  }

  /** `is_verified` never affects a login: setting it on any row leaves every outcome unchanged. */
  lemma LoginIgnoresIsVerified(env: Env, db: Directory, form: LoginForm, email: string, flag: bool)
    requires email in db.byEmail
    ensures GetToken(env, db.(byEmail := db.byEmail[email := db.byEmail[email].(isVerified := flag)]), form)
            == GetToken(env, db, form)
  {
  }

  /** A successful login reports `expires_in` equal to the TTL in seconds only when the TTL is under one day. */
  lemma LoginExpiresInIsTtlIff(env: Env, db: Directory, form: LoginForm)
    requires GetToken(env, db, form).Issued?
    ensures GetToken(env, db, form).response.expiresIn == env.accessTokenExpireMinutes * SecondsPerMinute
            <==> 0 <= env.accessTokenExpireMinutes < MinutesPerDay
  {
  }

  /** A payload whose id is 0 is rejected even when a user with id 0 exists. */
  lemma RefreshRejectsZeroId(env: Env, db: Directory, token: string)
    requires env.getTokenPayload(token).Success?
    requires GetId(env.getTokenPayload(token).value) == JInt(0)
    ensures GetRefreshToken(env, db, token) == InvalidRefreshToken
  {
  }

  /** A token without a usable id and a token naming an unknown user get the identical response. */
  lemma RefreshFailuresIndistinguishable(env: Env, db: Directory, noId: string, unknownId: string)
    requires env.getTokenPayload(noId).Success? && !Truthy(GetId(env.getTokenPayload(noId).value))
    requires env.getTokenPayload(unknownId).Success?
    requires Truthy(GetId(env.getTokenPayload(unknownId).value))
    requires FindById(db, GetId(env.getTokenPayload(unknownId).value)).None?
    ensures GetRefreshToken(env, db, noId) == GetRefreshToken(env, db, unknownId) == InvalidRefreshToken
  {
  }

  /** Refresh never looks at `is_active`: setting it on any row leaves every outcome unchanged. */
  lemma RefreshIgnoresIsActive(env: Env, db: Directory, token: string, id: int, flag: bool)
    requires id in db.byId
    ensures GetRefreshToken(env, db.(byId := db.byId[id := db.byId[id].(isActive := flag)]), token)
            == GetRefreshToken(env, db, token)
  {
  }

  /** An inactive account is refused at login but keeps refreshing with a token that names it. */
  lemma InactiveUserRefusedAtLoginButRefreshes(env: Env, db: Directory, form: LoginForm, token: string)
    requires Consistent(db)
    requires form.username in db.byEmail
    requires env.verifyPassword(form.password, db.byEmail[form.username].hashedPassword)
    requires !db.byEmail[form.username].isActive
    requires db.byEmail[form.username].id != 0
    requires env.getTokenPayload(token) == Success(IdPayload(db.byEmail[form.username].id))
    ensures GetToken(env, db, form) == AccountInactive
    ensures GetRefreshToken(env, db, token).Issued?
  {
  }

  /**
   * Presenting the refresh token from a login (which the codec decodes back to
   * its payload) gives the same refresh token back, an access token created
   * from the same payload and expiry, and the same `expires_in`. The codec has
   * no clock input here, so that access token equals the login's; the program
   * would stamp a later expiry.
   */
  lemma LoginThenRefresh(env: Env, db: Directory, form: LoginForm)
    requires Consistent(db)
    requires GetToken(env, db, form).Issued?
    requires db.byEmail[form.username].id != 0
    requires GetToken(env, db, form).response.refreshToken != ""
    requires var refresh := GetToken(env, db, form).response.refreshToken;
             env.getTokenPayload(refresh) == Success(IdPayload(db.byEmail[form.username].id))
    ensures GetRefreshToken(env, db, GetToken(env, db, form).response.refreshToken)
            == GetToken(env, db, form)
  {
  }

  /** A user whose id is 0 can log in but can never refresh with the token the login issued. */
  lemma ZeroIdUserCannotRefresh(env: Env, db: Directory, form: LoginForm)
    requires GetToken(env, db, form).Issued?
    requires db.byEmail[form.username].id == 0
    requires var refresh := GetToken(env, db, form).response.refreshToken;
             env.getTokenPayload(refresh) == Success(IdPayload(0))
    ensures GetRefreshToken(env, db, GetToken(env, db, form).response.refreshToken) == InvalidRefreshToken
  {
  }

  /** A successful refresh hands the presented token back unchanged: it is never rotated. */
  lemma RefreshTokenReusable(env: Env, db: Directory, token: string)
    requires GetRefreshToken(env, db, token).Issued?
    requires token != ""
    ensures GetRefreshToken(env, db, token).response.refreshToken == token
  {
  }

  /**
   * Nothing in the procedure tells the two token kinds apart: when the codec
   * decodes an access token from a login, presenting it as a refresh token
   * succeeds and echoes the access token back as the refresh token.
   */
  lemma AccessTokenAcceptedAsRefreshToken(env: Env, db: Directory, form: LoginForm)
    requires Consistent(db)
    requires GetToken(env, db, form).Issued?
    requires db.byEmail[form.username].id != 0
    requires GetToken(env, db, form).response.accessToken != ""
    requires var access := GetToken(env, db, form).response.accessToken;
             env.getTokenPayload(access) == Success(IdPayload(db.byEmail[form.username].id))
    ensures var access := GetToken(env, db, form).response.accessToken;
            && GetRefreshToken(env, db, access).Issued?
            && GetRefreshToken(env, db, access).response.refreshToken == access
  {
  }
}

=== FILE: services.dfy ===
/**
 * The login and refresh procedure of `auth/services.py`.
 *
 * Everything the procedure calls but does not define is a field of `Env`:
 * the password check, the three token-codec functions and the configured
 * access-token lifetime. The user table is a `Directory`. An HTTP error the
 * procedure raises is a `Rejected` outcome; an error raised by the token
 * parser passes through untouched as `Propagated`.
 */
module AuthServices {
  import opened Wrappers
  import opened Timedelta
  import opened Claims
  import opened Users

  /** The error `get_token_payload` raises on a malformed, tampered or expired token. */
  datatype TokenError = TokenError(reason: string)

  /** The collaborators and settings the procedure reads. */
  datatype Env = Env(
    verifyPassword: (string, string) -> bool,                  // (plain, hashed)
    createAccessToken: (Payload, TimeDelta) -> string,         // (data, expiry)
    createRefreshToken: Payload -> string,
    getTokenPayload: string -> Result<Payload, TokenError>,
    accessTokenExpireMinutes: int)

  /** The submitted login form: the email goes in the `username` field. */
  datatype LoginForm = LoginForm(username: string, password: string)

  datatype TokenResponse = TokenResponse(accessToken: string, refreshToken: string, expiresIn: int)

  /** How one request ends. */
  datatype Outcome =
    | Issued(response: TokenResponse)
    | Rejected(statusCode: int, detail: string, headers: map<string, string>)
    | Propagated(error: TokenError)
    | Crashed   // a TypeError raised while building an HTTPException

  /** The keyword under which a call site hands the status to `HTTPException`. */
  datatype StatusKeyword = StatusCodeKeyword | StatusKeyword

  const BadRequest: int := 400
  const Unauthorized: int := 401

  const BearerChallenge: map<string, string> := map["WWW-Authenticate" := "Bearer"]

  const UserNotFound: Outcome := Rejected(BadRequest, "User not found", BearerChallenge)
  const InvalidCredentials: Outcome := Rejected(BadRequest, "Invalid login credentials", BearerChallenge)
  const AccountInactive: Outcome :=
    Rejected(BadRequest, "Your account is inactive. Please contact support.", BearerChallenge)
  const InvalidRefreshToken: Outcome := Rejected(Unauthorized, "Invalid refresh token", BearerChallenge)

  /**
   * `raise HTTPException(<keyword>=code, detail=..., headers=...)`. The
   * constructor only knows `status_code`; any other keyword makes the call
   * itself fail with a TypeError.
   */
  function HttpException(kw: StatusKeyword, code: int, detail: string): (r: Outcome)
    ensures r.Rejected? <==> kw == StatusCodeKeyword
    ensures r.Rejected? ==> r.statusCode == code && r.detail == detail && r.headers == BearerChallenge
    ensures !r.Rejected? ==> r == Crashed
  {
    match kw
    case StatusCodeKeyword => Rejected(code, detail, BearerChallenge)
    case StatusKeyword => Crashed
  }

  /**
   * `_verify_user_access`: `None` when the user may log in, otherwise the
   * failure it raises. Only `is_active` is consulted; the `is_verified` check
   * is disabled in the source.
   */
  function VerifyUserAccess(user: User, kw: StatusKeyword): (r: Option<Outcome>)
    ensures r.None? <==> user.isActive
    ensures r.Some? ==> r.value == HttpException(kw, BadRequest, AccountInactive.detail)
  {
    if !user.isActive then Some(HttpException(kw, BadRequest, AccountInactive.detail)) else None
  }

  /**
   * `_get_user_token`: an access token for `{"id": user.id}` that expires after
   * the configured number of minutes, the supplied refresh token when it is
   * truthy (present and non-empty) or else a new one for the same payload, and
   * the `.seconds` field of the expiry as `expires_in`.
   */
  function UserToken(env: Env, user: User, refreshToken: Option<string>): (r: TokenResponse)
    ensures r.accessToken ==
            env.createAccessToken(IdPayload(user.id), FromMinutes(env.accessTokenExpireMinutes))
    ensures refreshToken.Some? && refreshToken.value != "" ==> r.refreshToken == refreshToken.value
    ensures refreshToken.None? || refreshToken.value == "" ==>
            r.refreshToken == env.createRefreshToken(IdPayload(user.id))
    ensures 0 <= r.expiresIn < SecondsPerDay
    ensures r.expiresIn == env.accessTokenExpireMinutes * SecondsPerMinute
                           - FromMinutes(env.accessTokenExpireMinutes).days * SecondsPerDay
  {
    var payload := IdPayload(user.id);
    var expiry := FromMinutes(env.accessTokenExpireMinutes);
    var accessToken := env.createAccessToken(payload, expiry);
    var refresh :=
      if refreshToken.None? || refreshToken.value == "" then env.createRefreshToken(payload)
      else refreshToken.value;
    TokenResponse(accessToken, refresh, expiry.seconds)
  }

  /**
   * `get_token`, with the keyword used at the two `HTTPException` call sites
   * for "User not found" and the inactive account as a parameter (the
   * credentials error is raised with `status_code` in every version).
   */
  function LoginWith(kw: StatusKeyword, env: Env, db: Directory, form: LoginForm): (r: Outcome)
    ensures form.username !in db.byEmail ==> r == HttpException(kw, BadRequest, UserNotFound.detail)
    ensures (&& form.username in db.byEmail
             && !env.verifyPassword(form.password, db.byEmail[form.username].hashedPassword))
            ==> r == InvalidCredentials
    ensures (&& form.username in db.byEmail
             && env.verifyPassword(form.password, db.byEmail[form.username].hashedPassword)
             && !db.byEmail[form.username].isActive)
            ==> r == HttpException(kw, BadRequest, AccountInactive.detail)
    ensures r.Issued? <==>
              && form.username in db.byEmail
              && env.verifyPassword(form.password, db.byEmail[form.username].hashedPassword)
              && db.byEmail[form.username].isActive
    ensures r.Issued? ==> r.response == UserToken(env, db.byEmail[form.username], None)
    ensures !r.Propagated?
  {
    match FindByEmail(db, form.username)
    case None => HttpException(kw, BadRequest, UserNotFound.detail)
    case Some(user) =>
      if !env.verifyPassword(form.password, user.hashedPassword) then
        HttpException(StatusCodeKeyword, BadRequest, InvalidCredentials.detail)
      else
        match VerifyUserAccess(user, kw)
        case Some(failure) => failure
        case None => Issued(UserToken(env, user, None))
  }

  /**
   * The login procedure with every `HTTPException` built under `status_code`.
   * The three checks run in order (email, password, active flag) and the first
   * that fails decides the 400 response; only a user passing all three gets
   * tokens, with a freshly created refresh token.
   */
  function GetToken(env: Env, db: Directory, form: LoginForm): (r: Outcome)
    ensures form.username !in db.byEmail ==> r == UserNotFound
    ensures (&& form.username in db.byEmail
             && !env.verifyPassword(form.password, db.byEmail[form.username].hashedPassword))
            ==> r == InvalidCredentials
    ensures (&& form.username in db.byEmail
             && env.verifyPassword(form.password, db.byEmail[form.username].hashedPassword)
             && !db.byEmail[form.username].isActive)
            ==> r == AccountInactive
    ensures r.Issued? <==>
              && form.username in db.byEmail
              && env.verifyPassword(form.password, db.byEmail[form.username].hashedPassword)
              && db.byEmail[form.username].isActive
    ensures r.Issued? ==>
              var id := db.byEmail[form.username].id;
              && r.response.accessToken ==
                 env.createAccessToken(IdPayload(id), FromMinutes(env.accessTokenExpireMinutes))
              && r.response.refreshToken == env.createRefreshToken(IdPayload(id))
              && r.response.expiresIn == FromMinutes(env.accessTokenExpireMinutes).seconds
  {
    LoginWith(StatusCodeKeyword, env, db, form)
  }

  /** The login procedure as the source writes it: `status=` at the "User not found" and inactive sites. */
  function GetTokenAsWritten(env: Env, db: Directory, form: LoginForm): (r: Outcome)
    ensures form.username !in db.byEmail ==> r == Crashed
    ensures (&& form.username in db.byEmail
             && env.verifyPassword(form.password, db.byEmail[form.username].hashedPassword)
             && !db.byEmail[form.username].isActive)
            ==> r == Crashed
    ensures r == Crashed <==>
              || form.username !in db.byEmail
              || (&& env.verifyPassword(form.password, db.byEmail[form.username].hashedPassword)
                  && !db.byEmail[form.username].isActive)
    ensures GetToken(env, db, form) != UserNotFound && GetToken(env, db, form) != AccountInactive
            ==> r == GetToken(env, db, form)
  {
    LoginWith(StatusKeyword, env, db, form)
  }

  /**
   * `get_refresh_token`: parse the presented token (a parse error propagates),
   * take its `id` claim, resolve the user and issue a new access token with
   * the presented token passed on as the refresh token. The account's active
   * flag is not consulted; a falsy id and an unknown id give the same 401.
   */
  function GetRefreshToken(env: Env, db: Directory, token: string): (r: Outcome)
    ensures r.Propagated? <==> env.getTokenPayload(token).Failure?
    ensures r.Propagated? ==> r.error == env.getTokenPayload(token).error
    ensures r.Rejected? ==> r == InvalidRefreshToken
    ensures r != Crashed
    ensures r.Issued? <==>
              && env.getTokenPayload(token).Success?
              && Truthy(GetId(env.getTokenPayload(token).value))
              && FindById(db, GetId(env.getTokenPayload(token).value)).Some?
    ensures r.Issued? ==>
              var user := FindById(db, GetId(env.getTokenPayload(token).value)).value;
              && r.response.accessToken ==
                 env.createAccessToken(IdPayload(user.id), FromMinutes(env.accessTokenExpireMinutes))
              && r.response.refreshToken ==
                 (if token != "" then token else env.createRefreshToken(IdPayload(user.id)))
              && r.response.expiresIn == FromMinutes(env.accessTokenExpireMinutes).seconds
  {
    match env.getTokenPayload(token)
    case Failure(e) => Propagated(e)
    case Success(payload) =>
      var userId := GetId(payload);
      if !Truthy(userId) then
        HttpException(StatusCodeKeyword, Unauthorized, InvalidRefreshToken.detail)
      else
        match FindById(db, userId)
        case None => HttpException(StatusCodeKeyword, Unauthorized, InvalidRefreshToken.detail)
        case Some(user) => Issued(UserToken(env, user, Some(token)))
  }
}

=== FILE: timedelta.dfy ===
/**
 * Python's `datetime.timedelta`, restricted to what `_get_user_token` uses:
 * construction from a whole number of minutes and the `.seconds` attribute.
 *
 * A timedelta is stored normalized as (days, seconds, microseconds) with
 * 0 <= seconds < 86400; days may be negative. Minutes are whole here, so the
 * microseconds part is always zero and is not represented.
 */
module Timedelta {

  const SecondsPerDay: int := 86400
  const SecondsPerMinute: int := 60
  const MinutesPerDay: int := 1440

  datatype TimeDelta = TimeDelta(days: int, seconds: int)

  /** Python's normal form: the seconds field is the part below one day. */
  predicate Normalized(d: TimeDelta) {
    0 <= d.seconds < SecondsPerDay
  }

  /** The length of the duration in whole seconds (microseconds are zero here). */
  function TotalSeconds(d: TimeDelta): int {
    d.days * SecondsPerDay + d.seconds
  }

  /** `timedelta(minutes=m)`: the normalized value whose length is m minutes. */
  function FromMinutes(m: int): (d: TimeDelta)
    ensures Normalized(d)
    ensures TotalSeconds(d) == m * SecondsPerMinute
  {
    var total := m * SecondsPerMinute;
    TimeDelta(total / SecondsPerDay, total % SecondsPerDay)
  }

  /** The normal form is unique, so FromMinutes is the only value Python can build. */
  lemma NormalFormUnique(a: TimeDelta, b: TimeDelta)
    requires Normalized(a) && Normalized(b)
    requires TotalSeconds(a) == TotalSeconds(b)
    ensures a == b
  {
  }

  /**
   * `.seconds` of `timedelta(minutes=m)` is m*60 exactly when the duration is
   * non-negative and shorter than one day; otherwise whole days are dropped.
   */
  lemma SecondsIsTotalIff(m: int)
    ensures FromMinutes(m).seconds == m * SecondsPerMinute <==> 0 <= m < MinutesPerDay
  {
  }

  /**
   * The `.seconds` field is the remainder after whole days (floor division,
   * so a negative TTL wraps into the previous day).
   */
  lemma SecondsDropsWholeDays(m: int)
    ensures FromMinutes(m).seconds == (m % MinutesPerDay) * SecondsPerMinute
    ensures FromMinutes(m).days == m / MinutesPerDay
  {
  }

  /** A one-day TTL reports zero seconds. */
  lemma OneDayReportsZeroSeconds()
    ensures FromMinutes(MinutesPerDay).seconds == 0
    ensures FromMinutes(MinutesPerDay).days == 1
  {
  }

  /** One instance of the wrap: timedelta(minutes=-1).seconds is 86340. */
  lemma NegativeMinuteWraps()
    ensures FromMinutes(-1).seconds == 86340
    ensures FromMinutes(-1).days == -1
  {
  }
}

=== FILE: users.dfy ===
/**
 * The user table, read-only to the authentication service: the two lookups
 * it performs, by email and by id, as finite maps.
 */
module Users {
  import opened Wrappers
  import opened Claims

  datatype User = User(
    id: int,
    email: string,
    hashedPassword: string,
    isActive: bool,
    isVerified: bool)

  /** The rows reachable by `UserModel.email == ...` and by `UserModel.id == ...`. */
  datatype Directory = Directory(byEmail: map<string, User>, byId: map<int, User>)

  /** Both indexes describe the same table: every row is found under its own email and id. */
  predicate Consistent(db: Directory) {
    && (forall e :: e in db.byEmail ==> db.byEmail[e].email == e && db.byEmail[e].id in db.byId
                                         && db.byId[db.byEmail[e].id] == db.byEmail[e])
    && (forall i :: i in db.byId ==> db.byId[i].id == i)
  }

  /** `db.query(UserModel).filter(UserModel.email == email).first()`. */
  function FindByEmail(db: Directory, email: string): (r: Option<User>)
    ensures r.Some? <==> email in db.byEmail
    ensures r.Some? ==> r.value == db.byEmail[email]
  {
    if email in db.byEmail then Some(db.byEmail[email]) else None
  }

  /**
   * `db.query(UserModel).filter(UserModel.id == user_id).first()` for an id
   * claim: only an integer claim can match the integer id column.
   */
  function FindById(db: Directory, claim: Json): (r: Option<User>)
    ensures r.Some? <==> claim.JInt? && claim.n in db.byId
    ensures r.Some? ==> r.value == db.byId[claim.n]
  {
    match claim
    case JInt(n) => if n in db.byId then Some(db.byId[n]) else None
    case _ => None
  }
}

=== FILE: wrappers.dfy ===
/** Option and Result, the two failure-carrying shapes the model needs. */
module Wrappers {

  datatype Option<+T> = None | Some(value: T)

  /** The outcome of a collaborator that may raise: a value, or the error it raised. */
  datatype Result<+R, +E> = Success(value: R) | Failure(error: E)
}
